=== FILE: README.md ===
# ipfs-crawl peer-walk, modelled in Dafny

A model of the discovery core of the ipfs-crawl crawler (`crawler.go`). The
crawler picks a random anchor key each round, asks the Kademlia DHT for the
peers closest to it, and for each one runs a depth-first *peer-walk*. The walk
skips a peer that is already in the registry. Otherwise it resolves the peer
with `FindPeer`, registers it, pushes its `PeerInfo` onto the dial queue, asks
`FindPeersConnectedToPeer` for its neighbours and walks each of them.

The model is purely functional:

- **State** (`Registry.Crawler`): the registry `peers` (a `set<PeerId>`); the
  dial queue `work`, seen as the append-only sequence of every `PeerInfo`
  pushed; and `lookups`, the trace of `FindPeer` queries issued. A query is
  issued exactly when the walk logs "Crawling peer".
- **DHT** (`Dht.Snapshot`): three finite maps, one per query. An absent key
  means the query returned an error.
- **Walk** (`PeerWalk.CrawlPeer` / `PeerWalk.CrawlSeq`): mutually recursive
  functions that thread the state through. `CrawlSeq` is the
  `for p := range ch` loop, shared by `crawlFromAnchor` and by the neighbour
  step of `crawlPeer`. Termination uses the measure
  `|resolvable identifiers - registry|`. The walk recurses only right after a
  resolvable, unregistered identifier has been registered, so this measure
  drops at each recursion.
- **Driver** (`Discovery.CrawlFromAnchor`, `Discovery.Crawl`): one anchor per
  round. Each round has its own DHT snapshot. The registry carries over from
  round to round.

The central contract is `PeerWalk.Walked(dht, c, r)`, kept by every walk.
It says:

- the registry only grows;
- the queue and the query trace are only appended to;
- the new registry entries are exactly the identifiers newly pushed;
- nothing registered before is pushed or queried again;
- no identifier is pushed twice;
- every push answers a `FindPeer` query made by the walk, and equals the
  DHT's answer to it;
- no resolvable identifier is queried twice in one walk (the registry check
  cuts every cycle);
- every queried identifier that resolves ends up registered;
- every newly registered peer with a neighbour list had each neighbour
  visited.

Beside `Walked`, each walk keeps `PeerWalk.Reached`: every identifier it
queries is one it was asked to walk, or a neighbour the DHT delivered for a
peer the walk registered. The walk queries nothing else.

`Worklist.CrawlPeerIterative` runs the same walk with an explicit stack
instead of recursion and is proved to give the identical final state.

**Registration follows a successful resolve.** `crawlPeer` registers a peer
only after `FindPeer` succeeds (crawler.go:85-90). A peer whose resolve failed
stays unregistered and is queried again whenever it is met
(`WalkProperties.FailedResolveQueriedAgain`, `Scenarios.ResolveFailureRetried`).
Each identifier is still pushed at most once, because insertion and push
happen together (crawler.go:90-91).

## Model

| member | source | states |
|---|---|---|
| Registry.NewCrawler | crawler.go:27-31 | A new crawler starts with an empty registry and an empty dial queue, and the registry-equals-queue invariant holds |
| Registry.Register | crawler.go:90-91 | Registering a resolved, unregistered peer adds exactly its identifier to the registry and appends exactly its PeerInfo to the queue, keeping the step contract |
| Registry.ExtendsPreservesConsistent | crawler.go:90-91 | Any step keeping the contract preserves "registry = set of pushed identifiers, none pushed twice" |
| PeerWalk.Resolve | crawler.go:79-91 | The FindPeer step queries p once; on success p is registered and PeerInfo(p, addrs) pushed; on failure registry and queue are unchanged |
| PeerWalk.CrawlPeer | crawler.go:73-105 | A registered p leaves the state unchanged. Otherwise p is queried first. A failed resolve changes only the query trace. A successful resolve pushes p's PeerInfo before anything a neighbour pushes (pre-order). A failed neighbour query stops right after the push. p ends registered iff it was registered or resolves. Every walk keeps `Walked`: every push was queried by the walk, and no resolvable identifier is queried twice. Every query is p or a neighbour delivered for a peer the walk registered (`Reached`) |
| PeerWalk.CrawlSeq | crawler.go:102-104 | Walking a yielded sequence keeps `Walked` (every push was queried by the walk, no resolvable identifier is queried twice) and visits every identifier in it (registered at the end, or queried). Conversely, it queries only yielded identifiers and neighbours delivered for peers it registered (`Reached`) |
| WalkProperties.CrawlSeqAppend | crawler.go:68-70 | Walking a + b equals walking a and then b from the state a left: identifiers are walked in yield order |
| WalkProperties.CrawlSeqLast | crawler.go:102-104 | The last yielded identifier is walked last, from the state the earlier ones left |
| WalkProperties.CrawlPeerIdempotent | crawler.go:74-77 | Once p is registered or resolvable, a second visit of p changes nothing |
| WalkProperties.FailedResolveQueriedAgain | crawler.go:85-90 | After a failed resolve p is still unregistered, so a second visit queries FindPeer again; registry and queue are unchanged |
| WalkProperties.CrawlSeqKeepsConsistent | crawler.go:90-91 | The registry-equals-queue invariant survives any walk, so it holds across any number of calls sharing the registry |
| WalkProperties.NoDuplicatePush | crawler.go:74-91 | From a new crawler, no identifier is pushed twice and the registry is exactly the set of pushed identifiers |
| WalkProperties.NeighboursRegistered | crawler.go:93-104 | After walking a yielded sequence, every resolvable neighbour of each newly registered peer whose neighbour query succeeded is registered too: the registry is closed under the neighbours the DHT delivered |
| WalkProperties.RegisteredNotQueriedAgain | crawler.go:74-77 | An identifier registered before a walk is never queried during it |
| Discovery.CrawlFromAnchor | crawler.go:60-71 | A failed GetClosestPeers is the fatal case. Otherwise every closest peer is visited, the walk keeps `Walked`, and it queries only closest peers and neighbours delivered for peers it registered |
| Discovery.Crawl | crawler.go:40-57 | At least the first round runs. Rounds keep the step contract with the registry carried over. Every closest peer of every round up to the first failing anchor is visited by the run. The run ends Fatal iff some round's anchor query fails, naming the first such anchor. Otherwise it ends Cancelled after the last round |
| Discovery.CrawlSound | crawler.go:40-71 | Every PeerInfo a run pushes answers a FindPeer query the run made, and is the DHT's answer in a round that ran (which round: `CrawlRoundFresh`) |
| Discovery.CrawlSplit | crawler.go:42-57 | When the first i rounds all ran, they end Cancelled and the run continues from the state they left over the remaining rounds: the registry is handed from round to round |
| Discovery.CrawlRoundFresh | crawler.go:49-71 | Round i, when it and every earlier round ran, is the walk of its own closest peers from the state the earlier rounds left, keeping `Walked` in its own DHT. The final queue keeps its pushes in place, and each is round i's DHT answer, not an earlier round's |
| Discovery.FatalStops | crawler.go:63-66 | A failing anchor query ends the process: the run equals the run cut right after the first failing round, so no later round has any effect |
| Discovery.FatalState | crawler.go:63-66 | At the first failing anchor the run ends Fatal naming it, with exactly the state the earlier rounds left: the failing round pushes and queries nothing |
| Discovery.RegistryCarriesOver | crawler.go:42-57 | A peer registered before the rounds stays registered and is never queried again in any later round |
| Worklist.CrawlPeerIterative | crawler.go:73-105 | The walk with an explicit stack of pending neighbour lists reaches exactly the state the recursive walk reaches |
| Scenarios.SinglePeer | crawler.go:60-105 | One closest peer with no neighbours: exactly one push, registry {A} |
| Scenarios.Cycle | crawler.go:73-105 | A and B list each other: each is pushed exactly once and the walk ends |
| Scenarios.ResolveFailureRetried | crawler.go:81-90 | A's FindPeer fails, then A is met again as B's neighbour and is queried a second time |

## Left out

- The dialer pool (`worker`, `tryConnect`, `host.Connect`, crawler.go:107-134) and the goroutines `NewCrawler` starts (crawler.go:33-35) are concurrency and network I/O. A dial outcome is only logged.
- The dial queue's capacity (`WORKERS`) and the blocking of `c.work <- pi` are back-pressure between tasks. The queue is the append-only sequence of everything pushed.
- `context.WithTimeout`, cancellation and the 60-second sleep are timing. A `GetClosestPeers` or `FindPeer` query that times out or is cancelled is a query error: the key is absent from the snapshot. Cancellation of the round loop is the end of the round list, observed only after a round has run (crawler.go:50-55), so a run has at least one round.
- `FindPeersConnectedToPeer`'s context is cancelled as soon as the call returns (crawler.go:95), before its stream is read (crawler.go:102-104). The stream may then deliver only a prefix of the neighbours, or none. `connected[p]` stands for what the stream delivers after that early cancel, not for the peer's full neighbour set; only an error from the call itself is an absent key.
- `rand.Read` and the base64 encoding of the anchor are a random source and a library call. Anchor keys arrive as data, so the fatal `rand.Read` error is not modelled.
- Logging (`log.Printf`). The one log line that matters, "Crawling peer", is the `lookups` trace. `log.Fatal` on a failed `GetClosestPeers` is the `Fatal` exit.
- The DHT's lazy channels are finite sequences. A stream that fails part-way looks like a shorter sequence.
- The DHT may change while a round runs; the model fixes one snapshot per round.
- FindPeer's `PeerInfo` carries the queried identifier. The model builds `PeerInfo(p, addrs)` from the addresses the DHT holds for `p`.

=== FILE: dht.dfy ===
/**
  The overlay's vocabulary and the distributed hash table as the crawler sees it.

  The DHT is modelled as a deterministic snapshot: three finite maps, one per
  query the crawler issues. A key that is absent from a map stands for a query
  that returned an error (not found, timed out, or cancelled).
 */
module Dht {

  /** An opaque peer identifier; only equality matters. */
  datatype PeerId = PeerId(multihash: string)

  /** A transport address, kept opaque. */
  type Multiaddr = string

  /** A resolved peer: its identifier and the addresses it advertises, in order. */
  datatype PeerInfo = PeerInfo(id: PeerId, addrs: seq<Multiaddr>)

  datatype Option<+T> = None | Some(value: T)

  /** One snapshot of the DHT's answers. */
  datatype Snapshot = Snapshot(
    closest: map<string, seq<PeerId>>,        // GetClosestPeers(key)
    resolve: map<PeerId, seq<Multiaddr>>,     // FindPeer(id)
    connected: map<PeerId, seq<PeerInfo>>)    // FindPeersConnectedToPeer(id)

  /** GetClosestPeers: the peers closest to an anchor key, in the DHT's yield order. */
  function GetClosestPeers(dht: Snapshot, key: string): Option<seq<PeerId>> {
    if key in dht.closest then Some(dht.closest[key]) else None
  }

  /** FindPeer: resolves an identifier to the peer's current addresses. */
  function FindPeer(dht: Snapshot, p: PeerId): Option<PeerInfo> {
    if p in dht.resolve then Some(PeerInfo(p, dht.resolve[p])) else None
  }

  /** FindPeersConnectedToPeer: the DHT's view of a peer's neighbours, in yield order. */
  function FindPeersConnectedToPeer(dht: Snapshot, p: PeerId): Option<seq<PeerInfo>> {
    if p in dht.connected then Some(dht.connected[p]) else None
  }

  /** True when `pi` is exactly what a successful FindPeer in `dht` produces. */
  predicate Resolved(dht: Snapshot, pi: PeerInfo) {
    pi.id in dht.resolve && pi.addrs == dht.resolve[pi.id]
  }

  /** The identifiers of a neighbour sequence, in the same order; addresses play no part. */
  function Ids(infos: seq<PeerInfo>): seq<PeerId> {
    seq(|infos|, i requires 0 <= i < |infos| => infos[i].id)
  }
}

=== FILE: discovery.dfy ===
/**
  The discovery driver of crawler.go: `crawlFromAnchor`, which walks every
  peer the DHT yields as closest to an anchor key, and the round loop of
  `Crawl`, which runs one anchor per round with the same registry throughout.

  Each round sees its own DHT snapshot, so the overlay may change between
  rounds. The random anchor keys arrive as data, and the lifecycle's
  cancellation, observed between rounds, is the end of the round list.
 */
module Discovery {
  import opened Dht
  import opened Registry
  import opened PeerWalk

  /** One discovery round: its anchor key and the DHT's answers during it. */
  datatype Round = Round(anchor: string, dht: Snapshot)

  /** How `Crawl` ends: cancellation between rounds, or a fatal anchor-query error. */
  datatype Exit = Cancelled(crawler: Crawler) | Fatal(crawler: Crawler, anchor: string)

  /**
    crawlFromAnchor: `None` when GetClosestPeers errors (the process exits);
    otherwise the walk of every closest peer, in yield order.
   */
  function CrawlFromAnchor(dht: Snapshot, c: Crawler, key: string): (r: Option<Crawler>)
    ensures r.None? <==> key !in dht.closest
    ensures r.Some? ==> Walked(dht, c, r.value)
    ensures r.Some? ==> forall k | 0 <= k < |dht.closest[key]| :: Visited(c, r.value, dht.closest[key][k])
    ensures r.Some? ==> Reached(dht, c, r.value, dht.closest[key])
  {
    match GetClosestPeers(dht, key)
    case None => None
    case Some(ps) => Some(CrawlSeq(dht, c, ps))
  }

  /** The round `i` whose anchor query fails. */
  predicate AnchorFails(rounds: seq<Round>, i: int)
    requires 0 <= i < |rounds|
  {
    rounds[i].anchor !in rounds[i].dht.closest
  }

  /** Round `i` and every round before it got an answer to its anchor query, so all of them ran. */
  predicate RoundRuns(rounds: seq<Round>, i: int)
    requires 0 <= i < |rounds|
  {
    forall j | 0 <= j <= i :: !AnchorFails(rounds, j)
  }

  /** The peers the DHT yields as closest to round `i`'s anchor; none when the query fails. */
  function Closest(rounds: seq<Round>, i: int): seq<PeerId>
    requires 0 <= i < |rounds|
  {
    if rounds[i].anchor in rounds[i].dht.closest then rounds[i].dht.closest[rounds[i].anchor] else []
  }

  /** `pi` is what FindPeer answers in the DHT of some round of `rounds` that ran. */
  predicate ResolvedInRun(rounds: seq<Round>, pi: PeerInfo) {
    exists i | 0 <= i < |rounds| && RoundRuns(rounds, i) :: Resolved(rounds[i].dht, pi)
  }

  /**
    The loop of `Crawl`: run each round's anchor against the registry the
    previous rounds left, until the rounds run out or an anchor query fails.
    The first round always runs: cancellation is observed only after it.
   */
  function Crawl(c: Crawler, rounds: seq<Round>): (r: Exit)
    requires |rounds| > 0
    decreases |rounds|
    ensures Extends(c, r.crawler)
    ensures Consistent(c) ==> Consistent(r.crawler)
    ensures r.Fatal? <==> exists i | 0 <= i < |rounds| :: AnchorFails(rounds, i)
    ensures r.Fatal? ==>
              exists i | 0 <= i < |rounds| ::
                && AnchorFails(rounds, i)
                && rounds[i].anchor == r.anchor
                && forall j | 0 <= j < i :: !AnchorFails(rounds, j)
    ensures forall i, k | 0 <= i < |rounds| && RoundRuns(rounds, i) && 0 <= k < |Closest(rounds, i)| ::
              Visited(c, r.crawler, Closest(rounds, i)[k])
  {
    match CrawlFromAnchor(rounds[0].dht, c, rounds[0].anchor)
    case None =>
      ExtendsReflexive(c);
      assert AnchorFails(rounds, 0);
      Fatal(c, rounds[0].anchor)
    case Some(c1) =>
      if |rounds| == 1 then
        ExtendsReflexive(c1);
        RoundStep(c, c1, Cancelled(c1), rounds);
        RoundStepVisits(c, c1, Cancelled(c1), rounds);
        Cancelled(c1)
      else
        var r := Crawl(c1, rounds[1..]);
        RoundStep(c, c1, r, rounds);
        RoundStepVisits(c, c1, r, rounds);
        r
  }

  /** A first round that ran, followed by the rest of the loop, keeps the exit contract of the whole loop. */
  lemma RoundStep(c: Crawler, c1: Crawler, r: Exit, rounds: seq<Round>)
    requires |rounds| > 0 && !AnchorFails(rounds, 0)
    requires Extends(c, c1) && Extends(c1, r.crawler)
    requires Consistent(c1) ==> Consistent(r.crawler)
    requires r.Fatal? <==> exists i | 0 <= i < |rounds| - 1 :: AnchorFails(rounds[1..], i)
    requires r.Fatal? ==>
               exists i | 0 <= i < |rounds| - 1 ::
                 && AnchorFails(rounds[1..], i)
                 && rounds[1..][i].anchor == r.anchor
                 && forall j | 0 <= j < i :: !AnchorFails(rounds[1..], j)
    ensures Extends(c, r.crawler)
    ensures Consistent(c) ==> Consistent(r.crawler)
    ensures r.Fatal? <==> exists i | 0 <= i < |rounds| :: AnchorFails(rounds, i)
    ensures r.Fatal? ==>
              exists i | 0 <= i < |rounds| ::
                && AnchorFails(rounds, i)
                && rounds[i].anchor == r.anchor
                && forall j | 0 <= j < i :: !AnchorFails(rounds, j)
  {
    ExtendsTransitive(c, c1, r.crawler);
    if Consistent(c) {
      ExtendsPreservesConsistent(c, c1);
    }
    if r.Fatal? {
      var i :| 0 <= i < |rounds| - 1 && AnchorFails(rounds[1..], i)
               && rounds[1..][i].anchor == r.anchor
               && forall j | 0 <= j < i :: !AnchorFails(rounds[1..], j);
      assert AnchorFails(rounds, i + 1);
      forall j | 0 <= j < i + 1
        ensures !AnchorFails(rounds, j)
      {
        if j > 0 {
          assert !AnchorFails(rounds[1..], j - 1);
        }
      }
    } else {
      forall i | 0 <= i < |rounds|
        ensures !AnchorFails(rounds, i)
      {
        if i > 0 {
          assert !AnchorFails(rounds[1..], i - 1);
        }
      }
    }
  }

  /** The closest peers of the first round and of every later round that ran are visited by the whole loop. */
  lemma RoundStepVisits(c: Crawler, c1: Crawler, r: Exit, rounds: seq<Round>)
    requires |rounds| > 0
    requires Extends(c, c1) && Extends(c1, r.crawler)
    requires forall k | 0 <= k < |Closest(rounds, 0)| :: Visited(c, c1, Closest(rounds, 0)[k])
    requires forall i, k | 0 <= i < |rounds| - 1 && RoundRuns(rounds[1..], i) && 0 <= k < |Closest(rounds[1..], i)| ::
               Visited(c1, r.crawler, Closest(rounds[1..], i)[k])
    ensures forall i, k | 0 <= i < |rounds| && RoundRuns(rounds, i) && 0 <= k < |Closest(rounds, i)| ::
              Visited(c, r.crawler, Closest(rounds, i)[k])
  {
    forall i, k | 0 <= i < |rounds| && RoundRuns(rounds, i) && 0 <= k < |Closest(rounds, i)|
      ensures Visited(c, r.crawler, Closest(rounds, i)[k])
    {
      if i > 0 {
        forall j | 0 <= j <= i - 1
          ensures !AnchorFails(rounds[1..], j)
        {
          assert !AnchorFails(rounds, j + 1);
        }
        assert RoundRuns(rounds[1..], i - 1);
        assert Closest(rounds[1..], i - 1) == Closest(rounds, i);
      }
      VisitedWiden(c, c1, r.crawler, Closest(rounds, i)[k]);
    }
  }

  /** Every push of the first round and of the rest of the loop was queried and resolved in a round that ran. */
  lemma RoundStepSound(c: Crawler, c1: Crawler, r: Exit, rounds: seq<Round>)
    requires |rounds| > 0 && !AnchorFails(rounds, 0)
    requires Extends(c, c1) && Extends(c1, r.crawler)
    requires Queried(c, c1) && Queried(c1, r.crawler)
    requires AuthenticSince(rounds[0].dht, c1.work, |c.work|)
    requires forall n | |c1.work| <= n < |r.crawler.work| :: ResolvedInRun(rounds[1..], r.crawler.work[n])
    ensures Queried(c, r.crawler)
    ensures forall n | |c.work| <= n < |r.crawler.work| :: ResolvedInRun(rounds, r.crawler.work[n])
  {
    QueriedTransitive(c, c1, r.crawler);
    assert r.crawler.work[..|c1.work|] == c1.work;
    assert RoundRuns(rounds, 0);
    forall n | |c.work| <= n < |r.crawler.work|
      ensures ResolvedInRun(rounds, r.crawler.work[n])
    {
      if n < |c1.work| {
        assert r.crawler.work[n] == c1.work[n];
        assert Resolved(rounds[0].dht, r.crawler.work[n]);
      } else {
        assert ResolvedInRun(rounds[1..], r.crawler.work[n]);
        var i :| 0 <= i < |rounds[1..]| && RoundRuns(rounds[1..], i) && Resolved(rounds[1..][i].dht, r.crawler.work[n]);
        forall j | 0 <= j <= i + 1
          ensures !AnchorFails(rounds, j)
        {
          if j > 0 {
            assert !AnchorFails(rounds[1..], j - 1);
          }
        }
        assert RoundRuns(rounds, i + 1);
        assert Resolved(rounds[i + 1].dht, r.crawler.work[n]);
      }
    }
  }

  /**
    Every PeerInfo a run pushes answers a FindPeer query the run made, and
    was resolved by the DHT of a round that ran.
   */
  lemma {:induction false} CrawlSound(c: Crawler, rounds: seq<Round>)
    requires |rounds| > 0
    ensures Queried(c, Crawl(c, rounds).crawler)
    ensures forall n | |c.work| <= n < |Crawl(c, rounds).crawler.work| ::
              ResolvedInRun(rounds, Crawl(c, rounds).crawler.work[n])
    decreases |rounds|
  {
    match CrawlFromAnchor(rounds[0].dht, c, rounds[0].anchor)
    case None =>
    case Some(c1) =>
      if |rounds| == 1 {
        assert Crawl(c, rounds) == Cancelled(c1);
        RoundStepSound(c, c1, Cancelled(c1), rounds);
      } else {
        assert Crawl(c, rounds) == Crawl(c1, rounds[1..]);
        CrawlSound(c1, rounds[1..]);
        RoundStepSound(c, c1, Crawl(c1, rounds[1..]), rounds);
      }
  }

  /** A first round that ran hands its registry on to the loop over the remaining rounds. */
  lemma CrawlFirstRound(c: Crawler, rounds: seq<Round>)
    requires |rounds| > 1 && !AnchorFails(rounds, 0)
    ensures CrawlFromAnchor(rounds[0].dht, c, rounds[0].anchor).Some?
    ensures Crawl(c, rounds) == Crawl(CrawlFromAnchor(rounds[0].dht, c, rounds[0].anchor).value, rounds[1..])
  {
  }

  /** A failing first anchor ends the run at once, with the registry as it was. */
  lemma CrawlFatalFirst(c: Crawler, rounds: seq<Round>)
    requires |rounds| > 0 && AnchorFails(rounds, 0)
    ensures Crawl(c, rounds) == Fatal(c, rounds[0].anchor)
  {
  }

  lemma PrefixTail<T>(s: seq<T>, i: nat)
    requires 0 < i < |s|
    ensures s[..i + 1][0] == s[0] && s[..i + 1][1..] == s[1..][..i]
  {
  }

  /**
    The shape of the round loop, generic in the walk `step` each round runs.
    It carries no contract, so facts about how rounds follow one another are
    proved on it cheaply and then carried over to `Crawl` by `CrawlIsLoop`.
   */
  function Loop(step: (Snapshot, Crawler, string) -> Option<Crawler>, c: Crawler, rounds: seq<Round>): Exit
    requires |rounds| > 0
    decreases |rounds|
  {
    match step(rounds[0].dht, c, rounds[0].anchor)
    case None => Fatal(c, rounds[0].anchor)
    case Some(c1) => if |rounds| == 1 then Cancelled(c1) else Loop(step, c1, rounds[1..])
  }

  /** `Crawl` is the round loop whose walk is `CrawlFromAnchor`. */
  lemma {:induction false} CrawlIsLoop(c: Crawler, rounds: seq<Round>)
    requires |rounds| > 0
    ensures Crawl(c, rounds) == Loop(CrawlFromAnchor, c, rounds)
    decreases |rounds|
  {
    match CrawlFromAnchor(rounds[0].dht, c, rounds[0].anchor)
    case None =>
    case Some(c1) =>
      if |rounds| > 1 {
        CrawlIsLoop(c1, rounds[1..]);
      }
  }

  /** A loop whose first `i` rounds end Cancelled continues from their state over the rest. */
  lemma {:induction false} LoopSplit(step: (Snapshot, Crawler, string) -> Option<Crawler>, c: Crawler,
                                     rounds: seq<Round>, i: nat)
    requires 0 < i < |rounds| && Loop(step, c, rounds[..i]).Cancelled?
    ensures Loop(step, c, rounds) == Loop(step, Loop(step, c, rounds[..i]).crawler, rounds[i..])
    decreases i
  {
    assert rounds[..i][0] == rounds[0];
    match step(rounds[0].dht, c, rounds[0].anchor)
    case None =>
    case Some(c1) =>
      if i > 1 {
        PrefixTail(rounds, i - 1);
        assert rounds[1..][i - 1..] == rounds[i..];
        LoopSplit(step, c1, rounds[1..], i - 1);
      }
  }

  /** A loop whose first `i + 1` rounds end Fatal ends the same way whatever rounds follow. */
  lemma {:induction false} LoopStops(step: (Snapshot, Crawler, string) -> Option<Crawler>, c: Crawler,
                                     rounds: seq<Round>, i: nat)
    requires i < |rounds| && Loop(step, c, rounds[..i + 1]).Fatal?
    ensures Loop(step, c, rounds) == Loop(step, c, rounds[..i + 1])
    decreases i
  {
    assert rounds[..i + 1][0] == rounds[0];
    match step(rounds[0].dht, c, rounds[0].anchor)
    case None =>
    case Some(c1) =>
      if i > 0 {
        PrefixTail(rounds, i);
        LoopStops(step, c1, rounds[1..], i - 1);
      }
  }

  /**
    A failing anchor query ends the run: the rounds after the first failing
    one have no effect on the outcome.
   */
  lemma FatalStops(c: Crawler, rounds: seq<Round>, i: nat)
    requires i < |rounds| && AnchorFails(rounds, i)
    requires forall j | 0 <= j < i :: !AnchorFails(rounds, j)
    ensures Crawl(c, rounds) == Crawl(c, rounds[..i + 1])
  {
    assert AnchorFails(rounds[..i + 1], i);
    CrawlIsLoop(c, rounds);
    CrawlIsLoop(c, rounds[..i + 1]);
    LoopStops(CrawlFromAnchor, c, rounds, i);
  }

  /**
    Once rounds `0 .. i-1` have all run, the loop is the loop over those rounds,
    which ends Cancelled, followed by the loop over the rest from the state
    they left: the registry is handed from round to round.
   */
  lemma CrawlSplit(c: Crawler, rounds: seq<Round>, i: nat)
    requires 0 < i < |rounds| && RoundRuns(rounds, i - 1)
    ensures Crawl(c, rounds[..i]).Cancelled?
    ensures Crawl(c, rounds) == Crawl(Crawl(c, rounds[..i]).crawler, rounds[i..])
  {
    forall j | 0 <= j < i
      ensures !AnchorFails(rounds[..i], j)
    {
      assert !AnchorFails(rounds, j) && rounds[..i][j] == rounds[j];
    }
    CrawlIsLoop(c, rounds);
    CrawlIsLoop(c, rounds[..i]);
    CrawlIsLoop(Crawl(c, rounds[..i]).crawler, rounds[i..]);
    LoopSplit(CrawlFromAnchor, c, rounds, i);
  }

  /** A single round that ran ends the loop Cancelled with the state its walk left. */
  lemma CrawlOnlyRound(c: Crawler, rounds: seq<Round>)
    requires |rounds| == 1 && !AnchorFails(rounds, 0)
    ensures CrawlFromAnchor(rounds[0].dht, c, rounds[0].anchor).Some?
    ensures Crawl(c, rounds) == Cancelled(CrawlFromAnchor(rounds[0].dht, c, rounds[0].anchor).value)
  {
  }

  /** The state round `i` starts from: `c` for the first round, else what the earlier rounds left. */
  function Before(c: Crawler, rounds: seq<Round>, i: nat): Crawler
    requires i < |rounds|
  {
    if i == 0 then c else Crawl(c, rounds[..i]).crawler
  }

  /** A first round that ran is a walk that the final state extends. */
  lemma FirstRoundKept(c: Crawler, rounds: seq<Round>)
    requires |rounds| > 0 && !AnchorFails(rounds, 0)
    ensures CrawlFromAnchor(rounds[0].dht, c, rounds[0].anchor).Some?
    ensures Extends(CrawlFromAnchor(rounds[0].dht, c, rounds[0].anchor).value, Crawl(c, rounds).crawler)
  {
    if |rounds| == 1 {
      CrawlOnlyRound(c, rounds);
      ExtendsReflexive(CrawlFromAnchor(rounds[0].dht, c, rounds[0].anchor).value);
    } else {
      CrawlFirstRound(c, rounds);
    }
  }

  /**
    Round `i`, when it and every round before it ran, is the walk of its own
    closest peers from the state the earlier rounds left, in its own DHT. The
    final queue keeps that walk's pushes in place, and each of them is the
    answer of round `i`'s DHT, not of an earlier round's.
   */
  lemma CrawlRoundFresh(c: Crawler, rounds: seq<Round>, i: nat)
    requires i < |rounds| && RoundRuns(rounds, i)
    ensures var w := CrawlFromAnchor(rounds[i].dht, Before(c, rounds, i), rounds[i].anchor);
            && w.Some?
            && Walked(rounds[i].dht, Before(c, rounds, i), w.value)
            && Extends(w.value, Crawl(c, rounds).crawler)
            && forall n | |Before(c, rounds, i).work| <= n < |w.value.work| ::
                 Resolved(rounds[i].dht, Crawl(c, rounds).crawler.work[n])
  {
    var b := Before(c, rounds, i);
    if i == 0 {
      FirstRoundKept(c, rounds);
    } else {
      assert RoundRuns(rounds, i - 1);
      CrawlSplit(c, rounds, i);
      assert rounds[i..][0] == rounds[i];
      FirstRoundKept(b, rounds[i..]);
    }
    var w := CrawlFromAnchor(rounds[i].dht, b, rounds[i].anchor).value;
    var r := Crawl(c, rounds).crawler;
    assert r.work[..|w.work|] == w.work;
    forall n | |b.work| <= n < |w.work|
      ensures Resolved(rounds[i].dht, r.work[n])
    {
      assert r.work[n] == w.work[n];
    }
  }

  /**
    At the first failing anchor the run ends Fatal, naming that anchor, with
    exactly the state the earlier rounds left: the failing round pushes and
    queries nothing.
   */
  lemma FatalState(c: Crawler, rounds: seq<Round>, i: nat)
    requires i < |rounds| && AnchorFails(rounds, i)
    requires forall j | 0 <= j < i :: !AnchorFails(rounds, j)
    ensures Crawl(c, rounds) == Fatal(Before(c, rounds, i), rounds[i].anchor)
  {
    if i == 0 {
      CrawlFatalFirst(c, rounds);
    } else {
      assert RoundRuns(rounds, i - 1);
      CrawlSplit(c, rounds, i);
      assert rounds[i..][0] == rounds[i];
      CrawlFatalFirst(Before(c, rounds, i), rounds[i..]);
    }
  }

  /**
    The registry carries over between rounds: nothing registered before a
    round is queried again during it or any later round.
   */
  lemma RegistryCarriesOver(c: Crawler, rounds: seq<Round>, q: PeerId)
    requires |rounds| > 0 && q in c.peers
    ensures q in Crawl(c, rounds).crawler.peers
    ensures forall i | |c.lookups| <= i < |Crawl(c, rounds).crawler.lookups| ::
              Crawl(c, rounds).crawler.lookups[i] != q
  {
  }
}

=== FILE: peerwalk.dfy ===
/**
  The recursive peer-walk of crawler.go: `crawlPeer` and the loop over a
  yielded sequence of identifiers that both `crawlFromAnchor` and the
  neighbour step of `crawlPeer` run.

  `CrawlPeer` and `CrawlSeq` are mutually recursive. They terminate because a
  recursive descent happens only right after a resolvable identifier that was
  not registered has been registered, so the number of resolvable but
  unregistered identifiers, `|Unseen(dht, c)|`, drops.
 */
module PeerWalk {
  import opened Dht
  import opened Registry

  /** Resolvable identifiers the registry does not hold yet. */
  function Unseen(dht: Snapshot, c: Crawler): set<PeerId> {
    dht.resolve.Keys - c.peers
  }

  lemma SubsetCardinality<T>(a: set<T>, b: set<T>)
    requires a <= b
    ensures |a| <= |b|
    decreases a
  {
    if a != {} {
      var x :| x in a;
      SubsetCardinality(a - {x}, b - {x});
    }
  }

  lemma UnseenShrinks(dht: Snapshot, c: Crawler, r: Crawler)
    requires c.peers <= r.peers
    ensures |Unseen(dht, r)| <= |Unseen(dht, c)|
  {
    SubsetCardinality(Unseen(dht, r), Unseen(dht, c));
  }

  lemma RegisterShrinksUnseen(dht: Snapshot, c: Crawler, p: PeerId)
    requires p in dht.resolve && p !in c.peers
    ensures |Unseen(dht, c.(peers := c.peers + {p}))| < |Unseen(dht, c)|
  {
    var c' := c.(peers := c.peers + {p});
    assert Unseen(dht, c') == Unseen(dht, c) - {p};
  }

  /** `x` is registered in `r`, or the walk from `c` to `r` issued a FindPeer for it. */
  predicate Visited(c: Crawler, r: Crawler, x: PeerId)
    requires |c.lookups| <= |r.lookups|
  {
    x in r.peers || x in r.lookups[|c.lookups|..]
  }

  /** Every peer registered between `c` and `r` that has a neighbour list had all its neighbours visited. */
  predicate Explored(dht: Snapshot, c: Crawler, r: Crawler)
    requires |c.lookups| <= |r.lookups|
  {
    forall q | q in r.peers && q !in c.peers && q in dht.connected ::
      forall k | 0 <= k < |dht.connected[q]| :: Visited(c, r, dht.connected[q][k].id)
  }

  lemma VisitedWiden(a: Crawler, b: Crawler, c: Crawler, x: PeerId)
    requires Extends(a, b) && Extends(b, c)
    requires Visited(b, c, x) || Visited(a, b, x)
    ensures Visited(a, c, x)
  {
  }

  /** Every identifier queried between `c` and `r` that resolves in `dht` is registered in `r`. */
  predicate Retained(dht: Snapshot, c: Crawler, r: Crawler)
    requires |c.lookups| <= |r.lookups|
  {
    forall i | |c.lookups| <= i < |r.lookups| :: r.lookups[i] in dht.resolve ==> r.lookups[i] in r.peers
  }

  /** Every identifier pushed between `c` and `r` was queried between `c` and `r`. */
  predicate Queried(c: Crawler, r: Crawler)
    requires |c.lookups| <= |r.lookups|
  {
    forall i | |c.work| <= i < |r.work| :: r.work[i].id in r.lookups[|c.lookups|..]
  }

  /** Between `c` and `r`, an identifier is queried twice only if it does not resolve. */
  predicate QueriedOnce(dht: Snapshot, c: Crawler, r: Crawler)
    requires |c.lookups| <= |r.lookups|
  {
    forall i, j | |c.lookups| <= i < j < |r.lookups| ::
      r.lookups[i] == r.lookups[j] ==> r.lookups[i] !in dht.resolve
  }

  /**
    The soundness half of a walk from `c` to `r` in `dht`: `Extends`, every
    push is the answer to a query the walk made, no successful resolve is
    forgotten, and no resolvable identifier is queried twice.
   */
  predicate Sound(dht: Snapshot, c: Crawler, r: Crawler) {
    && Extends(c, r)
    && AuthenticSince(dht, r.work, |c.work|)
    && Retained(dht, c, r)
    && Queried(c, r)
    && QueriedOnce(dht, c, r)
  }

  /** The contract of one walk: sound, and exhaustive in exploring neighbours. */
  predicate Walked(dht: Snapshot, c: Crawler, r: Crawler) {
    Sound(dht, c, r) && Explored(dht, c, r)
  }

  lemma WalkedReflexive(dht: Snapshot, c: Crawler)
    ensures Walked(dht, c, c)
  {
  }

  lemma RetainedTransitive(dht: Snapshot, a: Crawler, b: Crawler, c: Crawler)
    requires Extends(a, b) && Extends(b, c)
    requires Retained(dht, a, b) && Retained(dht, b, c)
    ensures Retained(dht, a, c)
  {
    assert c.lookups[..|b.lookups|] == b.lookups;
    forall i | |a.lookups| <= i < |b.lookups| && c.lookups[i] in dht.resolve
      ensures c.lookups[i] in c.peers
    {
      assert c.lookups[i] == b.lookups[i];
    }
  }

  lemma QueriedTransitive(a: Crawler, b: Crawler, c: Crawler)
    requires Extends(a, b) && Extends(b, c)
    requires Queried(a, b) && Queried(b, c)
    ensures Queried(a, c)
  {
    assert c.lookups[..|b.lookups|] == b.lookups;
    assert c.work[..|b.work|] == b.work;
    forall i | |a.work| <= i < |c.work|
      ensures c.work[i].id in c.lookups[|a.lookups|..]
    {
      if i < |b.work| {
        assert c.work[i] == b.work[i];
        assert b.work[i].id in b.lookups[|a.lookups|..];
        var j :| 0 <= j < |b.lookups| - |a.lookups| && b.lookups[|a.lookups|..][j] == b.work[i].id;
        assert c.lookups[|a.lookups|..][j] == b.lookups[|a.lookups| + j];
      } else {
        assert c.work[i].id in c.lookups[|b.lookups|..];
        var j :| 0 <= j < |c.lookups| - |b.lookups| && c.lookups[|b.lookups|..][j] == c.work[i].id;
        assert c.lookups[|a.lookups|..][j + |b.lookups| - |a.lookups|] == c.lookups[|b.lookups| + j];
      }
    }
  }

  lemma QueriedOnceTransitive(dht: Snapshot, a: Crawler, b: Crawler, c: Crawler)
    requires Extends(a, b) && Extends(b, c)
    requires Retained(dht, a, b)
    requires QueriedOnce(dht, a, b) && QueriedOnce(dht, b, c)
    ensures QueriedOnce(dht, a, c)
  {
    assert c.lookups[..|b.lookups|] == b.lookups;
    forall i, j | |a.lookups| <= i < j < |c.lookups| && c.lookups[i] == c.lookups[j]
      ensures c.lookups[i] !in dht.resolve
    {
      if j < |b.lookups| {
        assert c.lookups[i] == b.lookups[i] && c.lookups[j] == b.lookups[j];
      } else if i < |b.lookups| {
        assert c.lookups[i] == b.lookups[i];
        // a resolvable identifier queried before `b` is registered in `b`, so not queried again after it
        assert c.lookups[j] !in b.peers;
      }
    }
  }

  lemma SoundTransitive(dht: Snapshot, a: Crawler, b: Crawler, c: Crawler)
    requires Sound(dht, a, b) && Sound(dht, b, c)
    ensures Sound(dht, a, c)
  {
    ExtendsTransitive(a, b, c);
    AuthenticTransitive(dht, a, b, c);
    RetainedTransitive(dht, a, b, c);
    QueriedTransitive(a, b, c);
    QueriedOnceTransitive(dht, a, b, c);
  }

  lemma WalkedTransitive(dht: Snapshot, a: Crawler, b: Crawler, c: Crawler)
    requires Walked(dht, a, b) && Walked(dht, b, c)
    ensures Walked(dht, a, c)
  {
    SoundTransitive(dht, a, b, c);
    forall q, k | q in c.peers && q !in a.peers && q in dht.connected && 0 <= k < |dht.connected[q]|
      ensures Visited(a, c, dht.connected[q][k].id)
    {
      VisitedWiden(a, b, c, dht.connected[q][k].id);
    }
  }

  /** The FindPeer query for `p` and, when it resolves, the registration that follows. */
  function Resolve(dht: Snapshot, c: Crawler, p: PeerId): (r: Crawler)
    requires p !in c.peers
    ensures Sound(dht, c, r)
    ensures r.lookups == c.lookups + [p]
    ensures p in dht.resolve ==>
              r.peers == c.peers + {p} && r.work == c.work + [PeerInfo(p, dht.resolve[p])]
    ensures p !in dht.resolve ==> r.peers == c.peers && r.work == c.work
  {
    var c1 := Lookup(c, p);
    match FindPeer(dht, p)
    case None => c1
    case Some(pi) =>
      var c2 := Register(c1, pi);
      ExtendsTransitive(c, c1, c2);
      assert c2.lookups[|c.lookups|..] == [p];
      c2
  }

  /** Without a neighbour list to walk, the resolve step alone keeps the contract. */
  lemma ResolveWalked(dht: Snapshot, c: Crawler, p: PeerId)
    requires p !in c.peers
    requires p !in dht.resolve || p !in dht.connected
    ensures Walked(dht, c, Resolve(dht, c, p))
  {
  }

  /** A walk of `p`'s neighbours after `p` was registered keeps the contract from before `p`. */
  lemma DescendWalked(dht: Snapshot, c: Crawler, p: PeerId, r: Crawler)
    requires p !in c.peers && p in dht.resolve && p in dht.connected
    requires Walked(dht, Resolve(dht, c, p), r)
    requires forall k | 0 <= k < |Ids(dht.connected[p])| ::
               Visited(Resolve(dht, c, p), r, Ids(dht.connected[p])[k])
    ensures Walked(dht, c, r)
    ensures p in r.peers
    ensures |r.lookups| > |c.lookups| && r.lookups[|c.lookups|] == p
    ensures |r.work| > |c.work| && r.work[|c.work|] == PeerInfo(p, dht.resolve[p])
  {
    var c2 := Resolve(dht, c, p);
    SoundTransitive(dht, c, c2, r);
    forall k | 0 <= k < |dht.connected[p]|
      ensures Visited(c2, r, dht.connected[p][k].id)
    {
      assert Ids(dht.connected[p])[k] == dht.connected[p][k].id;
    }
    forall q, k | q in r.peers && q !in c.peers && q in dht.connected && 0 <= k < |dht.connected[q]|
      ensures Visited(c, r, dht.connected[q][k].id)
    {
      VisitedWiden(c, c2, r, dht.connected[q][k].id);
    }
    assert r.work[..|c2.work|] == c2.work;
    assert r.lookups[..|c2.lookups|] == c2.lookups;
  }

  /** `x` is a neighbour the DHT delivered for some peer registered between `c` and `r`. */
  predicate Delivered(dht: Snapshot, c: Crawler, r: Crawler, x: PeerId) {
    exists q, k | q in r.peers && q !in c.peers && q in dht.connected && 0 <= k < |dht.connected[q]| ::
      x == dht.connected[q][k].id
  }

  /**
    Every identifier queried between `c` and `r` was one of `ps`, or a
    neighbour delivered for a peer the walk registered: the walk queries
    nothing that the yielded sequence or a neighbour stream did not lead to.
   */
  predicate Reached(dht: Snapshot, c: Crawler, r: Crawler, ps: seq<PeerId>)
    requires |c.lookups| <= |r.lookups|
  {
    forall i | |c.lookups| <= i < |r.lookups| :: r.lookups[i] in ps || Delivered(dht, c, r, r.lookups[i])
  }

  lemma DeliveredWiden(dht: Snapshot, a: Crawler, b: Crawler, c: Crawler, x: PeerId)
    requires Extends(a, b) && Extends(b, c)
    requires Delivered(dht, a, b, x) || Delivered(dht, b, c, x)
    ensures Delivered(dht, a, c, x)
  {
  }

  /** The first identifier reached, then the rest of the sequence reached from where it left off. */
  lemma ReachedCompose(dht: Snapshot, a: Crawler, b: Crawler, c: Crawler, ps: seq<PeerId>)
    requires |ps| > 0
    requires Extends(a, b) && Extends(b, c)
    requires Reached(dht, a, b, [ps[0]]) && Reached(dht, b, c, ps[1..])
    ensures Reached(dht, a, c, ps)
  {
    assert c.lookups[..|b.lookups|] == b.lookups;
    forall i | |a.lookups| <= i < |c.lookups| && c.lookups[i] !in ps
      ensures Delivered(dht, a, c, c.lookups[i])
    {
      if i < |b.lookups| {
        assert c.lookups[i] == b.lookups[i];
      } else {
        assert c.lookups[i] !in ps[1..];
      }
      DeliveredWiden(dht, a, b, c, c.lookups[i]);
    }
  }

  /** A walk of `p`'s delivered neighbours after `p` was registered reaches nothing but `p` and delivered neighbours. */
  lemma DescendReached(dht: Snapshot, c: Crawler, p: PeerId, r: Crawler)
    requires p !in c.peers && p in dht.resolve && p in dht.connected
    requires Extends(Resolve(dht, c, p), r)
    requires Reached(dht, Resolve(dht, c, p), r, Ids(dht.connected[p]))
    ensures Reached(dht, c, r, [p])
  {
    var c2 := Resolve(dht, c, p);
    ExtendsTransitive(c, c2, r);
    assert r.lookups[..|c2.lookups|] == c2.lookups;
    forall i | |c.lookups| <= i < |r.lookups| && r.lookups[i] != p
      ensures Delivered(dht, c, r, r.lookups[i])
    {
      if r.lookups[i] in Ids(dht.connected[p]) {
        var k :| 0 <= k < |Ids(dht.connected[p])| && Ids(dht.connected[p])[k] == r.lookups[i];
        assert r.lookups[i] == dht.connected[p][k].id;
      } else {
        DeliveredWiden(dht, c, c2, r, r.lookups[i]);
      }
    }
  }

  /**
    crawlPeer: skip an identifier already registered; otherwise query FindPeer,
    and on success register the identifier, push its PeerInfo, then walk its
    neighbours in yield order unless the neighbour query fails.
   */
  function CrawlPeer(dht: Snapshot, c: Crawler, p: PeerId): (r: Crawler)
    decreases |Unseen(dht, c)|, 1, 0
    ensures Walked(dht, c, r)
    ensures Reached(dht, c, r, [p])
    ensures p in c.peers ==> r == c
    ensures p in r.peers <==> p in c.peers || p in dht.resolve
    ensures p !in c.peers ==> |r.lookups| > |c.lookups| && r.lookups[|c.lookups|] == p
    ensures p !in c.peers && p !in dht.resolve ==>
              r.peers == c.peers && r.work == c.work && r.lookups == c.lookups + [p]
    ensures p !in c.peers && p in dht.resolve ==>
              |r.work| > |c.work| && r.work[|c.work|] == PeerInfo(p, dht.resolve[p])
    ensures p !in c.peers && p in dht.resolve && p !in dht.connected ==>
              && r.peers == c.peers + {p}
              && r.work == c.work + [PeerInfo(p, dht.resolve[p])]
              && r.lookups == c.lookups + [p]
  {
    if p in c.peers then
      WalkedReflexive(dht, c);
      c
    else
      var c2 := Resolve(dht, c, p);
      if p !in dht.resolve then
        ResolveWalked(dht, c, p);
        c2
      else
        RegisterShrinksUnseen(dht, c, p);
        assert c2.peers == c.peers + {p};
        match FindPeersConnectedToPeer(dht, p)
        case None =>
          ResolveWalked(dht, c, p);
          c2
        case Some(ns) =>
          assert ns == dht.connected[p];
          var r := CrawlSeq(dht, c2, Ids(ns));
          DescendWalked(dht, c, p, r);
          DescendReached(dht, c, p, r);
          r
  }

  /** A visit that resolves `p` and obtains its neighbour list continues as the walk of that list. */
  lemma CrawlPeerDescends(dht: Snapshot, c: Crawler, p: PeerId)
    requires p !in c.peers && p in dht.resolve && p in dht.connected
    ensures CrawlPeer(dht, c, p) == CrawlSeq(dht, Resolve(dht, c, p), Ids(dht.connected[p]))
  {
  }

  /**
    The `for p := range ch { c.crawlPeer(p) }` loop: walk each identifier in
    the order the sequence yields them, threading the registry through.
   */
  function CrawlSeq(dht: Snapshot, c: Crawler, ps: seq<PeerId>): (r: Crawler)
    decreases |Unseen(dht, c)|, 2, |ps|
    ensures Walked(dht, c, r)
    ensures forall k | 0 <= k < |ps| :: Visited(c, r, ps[k])
    ensures Reached(dht, c, r, ps)
  {
    if ps == [] then
      WalkedReflexive(dht, c);
      c
    else
      var c1 := CrawlPeer(dht, c, ps[0]);
      UnseenShrinks(dht, c, c1);
      var r := CrawlSeq(dht, c1, ps[1..]);
      SeqStepVisited(dht, c, c1, r, ps);
      ReachedCompose(dht, c, c1, r, ps);
      WalkedTransitive(dht, c, c1, r);
      r
  }

  lemma SeqStepVisited(dht: Snapshot, c: Crawler, c1: Crawler, r: Crawler, ps: seq<PeerId>)
    requires |ps| > 0
    requires Extends(c, c1) && Extends(c1, r)
    requires Visited(c, c1, ps[0])
    requires forall k | 0 <= k < |ps| - 1 :: Visited(c1, r, ps[1..][k])
    ensures forall k | 0 <= k < |ps| :: Visited(c, r, ps[k])
  {
    VisitedWiden(c, c1, r, ps[0]);
    forall k | 1 <= k < |ps|
      ensures Visited(c, r, ps[k])
    {
      assert ps[k] == ps[1..][k - 1];
      VisitedWiden(c, c1, r, ps[k]);
    }
  }
}

=== FILE: registry.dfy ===
/**
  The crawler's mutable state, made immutable: the peer registry, the dial
  queue seen as the append-only sequence of everything pushed onto it, and the
  trace of FindPeer queries issued (one per "Crawling peer" log line).

  `Extends(c, r)` is the contract every step of the walk keeps: the registry
  only grows, the queue and the trace are only appended to, every newly
  registered identifier is one that was pushed, nothing already registered is
  pushed or queried again, and no identifier is pushed twice.
 */
module Registry {
  import opened Dht

  datatype Crawler = Crawler(peers: set<PeerId>, work: seq<PeerInfo>, lookups: seq<PeerId>)

  /** The identifiers pushed onto the queue at positions `from` and later. */
  function EmittedSince(w: seq<PeerInfo>, from: nat): set<PeerId> {
    set i | from <= i < |w| :: w[i].id
  }

  /** No identifier occurs twice among the entries at positions `from` and later. */
  predicate DistinctSince(w: seq<PeerInfo>, from: nat) {
    forall i, j | from <= i < j < |w| :: w[i].id != w[j].id
  }

  /** Every entry at positions `from` and later came from a successful FindPeer in `dht`. */
  predicate AuthenticSince(dht: Snapshot, w: seq<PeerInfo>, from: nat) {
    forall i | from <= i < |w| :: Resolved(dht, w[i])
  }

  /** The registry is exactly the set of identifiers ever pushed, each pushed once. */
  predicate Consistent(c: Crawler) {
    c.peers == EmittedSince(c.work, 0) && DistinctSince(c.work, 0)
  }

  predicate Extends(c: Crawler, r: Crawler) {
    && |c.work| <= |r.work| && r.work[..|c.work|] == c.work
    && |c.lookups| <= |r.lookups| && r.lookups[..|c.lookups|] == c.lookups
    && r.peers == c.peers + EmittedSince(r.work, |c.work|)
    && (forall i | |c.work| <= i < |r.work| :: r.work[i].id !in c.peers)
    && DistinctSince(r.work, |c.work|)
    && (forall i | |c.lookups| <= i < |r.lookups| :: r.lookups[i] !in c.peers)
  }

  /** NewCrawler: an empty registry and an empty queue. */
  function NewCrawler(): (c: Crawler)
    ensures Consistent(c)
    ensures c.peers == {} && c.work == []
  {
    Crawler({}, [], [])
  }

  /** The "Crawling peer" step: a FindPeer query for an unregistered identifier. */
  function Lookup(c: Crawler, p: PeerId): (r: Crawler)
    requires p !in c.peers
    ensures Extends(c, r)
    ensures r.peers == c.peers && r.work == c.work
    ensures r.lookups == c.lookups + [p]
  {
    c.(lookups := c.lookups + [p])
  }

  /** Registration of a resolved peer: insert its identifier and push its PeerInfo. */
  function Register(c: Crawler, pi: PeerInfo): (r: Crawler)
    requires pi.id !in c.peers
    ensures Extends(c, r)
    ensures r.peers == c.peers + {pi.id}
    ensures r.work == c.work + [pi] && r.lookups == c.lookups
  {
    var r := c.(peers := c.peers + {pi.id}, work := c.work + [pi]);
    assert EmittedSince(r.work, |c.work|) == {pi.id} by {
      assert r.work[|c.work|] == pi;
    }
    r
  }

  lemma ExtendsReflexive(c: Crawler)
    ensures Extends(c, c)
  {
  }

  /** Two steps that each keep the contract make one step that keeps it. */
  lemma ExtendsTransitive(a: Crawler, b: Crawler, c: Crawler)
    requires Extends(a, b) && Extends(b, c)
    ensures Extends(a, c)
  {
  }

  /** Authenticity of the pushed entries composes along two steps. */
  lemma AuthenticTransitive(dht: Snapshot, a: Crawler, b: Crawler, c: Crawler)
    requires Extends(a, b) && Extends(b, c)
    requires AuthenticSince(dht, b.work, |a.work|) && AuthenticSince(dht, c.work, |b.work|)
    ensures AuthenticSince(dht, c.work, |a.work|)
  {
  }

  /** A consistent state stays consistent along any step that keeps the contract. */
  lemma ExtendsPreservesConsistent(c: Crawler, r: Crawler)
    requires Consistent(c) && Extends(c, r)
    ensures Consistent(r)
  {
  }
}

=== FILE: scenarios.dfy ===
/**
  Concrete walks over small overlays: a single peer, a two-peer cycle, and a
  peer whose FindPeer fails and is met again later in the same round.
 */
module Scenarios {
  import opened Dht
  import opened Registry
  import opened PeerWalk
  import opened Discovery

  const A := PeerId("A")
  const B := PeerId("B")

  /** One closest peer with one address and an empty neighbour list: one push, and the round ends. */
  lemma SinglePeer()
    ensures var dht := Snapshot(map["k" := [A]], map[A := ["/ip4/10.0.0.1/tcp/4001"]], map[A := []]);
            CrawlFromAnchor(dht, NewCrawler(), "k")
              == Some(Crawler({A}, [PeerInfo(A, ["/ip4/10.0.0.1/tcp/4001"])], [A]))
  {
    var dht := Snapshot(map["k" := [A]], map[A := ["/ip4/10.0.0.1/tcp/4001"]], map[A := []]);
    var c1 := Crawler({A}, [PeerInfo(A, ["/ip4/10.0.0.1/tcp/4001"])], [A]);
    assert Ids(dht.connected[A]) == [];
    assert Resolve(dht, NewCrawler(), A) == c1;
    CrawlPeerDescends(dht, NewCrawler(), A);
    assert CrawlPeer(dht, NewCrawler(), A) == c1;
    assert CrawlSeq(dht, NewCrawler(), [A]) == CrawlSeq(dht, c1, []);
  }

  /** A and B list each other as neighbours: each is pushed exactly once and the walk stops. */
  lemma Cycle()
    ensures var dht := Snapshot(map["k" := [A]],
                                map[A := ["a1"], B := ["b1"]],
                                map[A := [PeerInfo(B, ["b1"])], B := [PeerInfo(A, ["a1"])]]);
            CrawlFromAnchor(dht, NewCrawler(), "k")
              == Some(Crawler({A, B}, [PeerInfo(A, ["a1"]), PeerInfo(B, ["b1"])], [A, B]))
  {
    var dht := Snapshot(map["k" := [A]],
                        map[A := ["a1"], B := ["b1"]],
                        map[A := [PeerInfo(B, ["b1"])], B := [PeerInfo(A, ["a1"])]]);
    var c1 := Crawler({A}, [PeerInfo(A, ["a1"])], [A]);
    var c2 := Crawler({A, B}, [PeerInfo(A, ["a1"]), PeerInfo(B, ["b1"])], [A, B]);
    assert Ids(dht.connected[B]) == [A];
    assert Ids(dht.connected[A]) == [B];
    assert CrawlSeq(dht, c2, [A]) == CrawlSeq(dht, c2, []);
    assert Resolve(dht, c1, B) == c2;
    CrawlPeerDescends(dht, c1, B);
    assert CrawlSeq(dht, c1, [B]) == CrawlSeq(dht, c2, []);
    assert Resolve(dht, NewCrawler(), A) == c1;
    CrawlPeerDescends(dht, NewCrawler(), A);
    assert CrawlSeq(dht, NewCrawler(), [A]) == CrawlSeq(dht, c2, []);
  }

  /** A's FindPeer fails; B resolves and lists A as its one neighbour. */
  const Flaky := Snapshot(map["k" := [A, B]], map[B := ["b1"]], map[B := [PeerInfo(A, [])]])

  /** B's visit, after A's failed query, queries A once more. */
  lemma VisitAfterFailure()
    ensures CrawlSeq(Flaky, Crawler({}, [], [A]), [B])
              == Crawler({B}, [PeerInfo(B, ["b1"])], [A, B, A])
  {
    var c1 := Crawler({}, [], [A]);
    var c2 := Crawler({B}, [PeerInfo(B, ["b1"])], [A, B]);
    var c3 := Crawler({B}, [PeerInfo(B, ["b1"])], [A, B, A]);
    assert Ids(Flaky.connected[B]) == [A];
    assert CrawlPeer(Flaky, c2, A) == c3;
    assert CrawlSeq(Flaky, c2, [A]) == CrawlSeq(Flaky, c3, []);
    assert Resolve(Flaky, c1, B) == c2;
    CrawlPeerDescends(Flaky, c1, B);
    assert CrawlSeq(Flaky, c1, [B]) == CrawlSeq(Flaky, c3, []);
  }

  /**
    FindPeer(A) fails, then B lists A as a neighbour: A is queried a second
    time, because only a successful resolve registers an identifier.
   */
  lemma ResolveFailureRetried()
    ensures CrawlFromAnchor(Flaky, NewCrawler(), "k")
              == Some(Crawler({B}, [PeerInfo(B, ["b1"])], [A, B, A]))
  {
    var c1 := Crawler({}, [], [A]);
    assert CrawlPeer(Flaky, NewCrawler(), A) == c1;
    assert CrawlSeq(Flaky, NewCrawler(), [A, B]) == CrawlSeq(Flaky, c1, [B]);
    VisitAfterFailure();
  }
}

=== FILE: walk_properties.dfy ===
/**
  Properties of the peer-walk that relate several calls: yield order,
  idempotence of a visit, the re-query of an identifier whose FindPeer
  failed, the registry-equals-queue invariant, and closure of the registry
  under the resolvable neighbours the DHT delivered for the peers a walk
  registered.
 */
module WalkProperties {
  import opened Dht
  import opened Registry
  import opened PeerWalk

  /** Walking `a` then `b` is walking `a + b`: the loop visits identifiers strictly in yield order. */
  lemma {:induction false} CrawlSeqAppend(dht: Snapshot, c: Crawler, a: seq<PeerId>, b: seq<PeerId>)
    ensures CrawlSeq(dht, c, a + b) == CrawlSeq(dht, CrawlSeq(dht, c, a), b)
    decreases |a|
  {
    if a == [] {
      assert a + b == b;
    } else {
      assert (a + b)[0] == a[0];
      assert (a + b)[1..] == a[1..] + b;
      CrawlSeqAppend(dht, CrawlPeer(dht, c, a[0]), a[1..], b);
    }
  }

  /** The last identifier yielded is walked last, from the state the earlier ones left. */
  lemma CrawlSeqLast(dht: Snapshot, c: Crawler, ps: seq<PeerId>, p: PeerId)
    ensures CrawlSeq(dht, c, ps + [p]) == CrawlPeer(dht, CrawlSeq(dht, c, ps), p)
  {
    CrawlSeqAppend(dht, c, ps, [p]);
    var m := CrawlSeq(dht, c, ps);
    assert CrawlSeq(dht, m, [p]) == CrawlSeq(dht, CrawlPeer(dht, m, p), []);
  }

  /** Once a visit has registered `p`, visiting `p` again changes nothing. */
  lemma CrawlPeerIdempotent(dht: Snapshot, c: Crawler, p: PeerId)
    requires p in c.peers || p in dht.resolve
    ensures CrawlPeer(dht, CrawlPeer(dht, c, p), p) == CrawlPeer(dht, c, p)
  {
  }

  /**
    A FindPeer failure leaves `p` unregistered, so meeting `p` again queries
    FindPeer again; registry and queue stay as they were.
   */
  lemma FailedResolveQueriedAgain(dht: Snapshot, c: Crawler, p: PeerId)
    requires p !in c.peers && p !in dht.resolve
    ensures CrawlPeer(dht, CrawlPeer(dht, c, p), p)
              == c.(lookups := c.lookups + [p, p])
  {
  }

  /** A walk from a consistent state keeps the registry equal to the set of pushed identifiers, each pushed once. */
  lemma CrawlSeqKeepsConsistent(dht: Snapshot, c: Crawler, ps: seq<PeerId>)
    requires Consistent(c)
    ensures Consistent(CrawlSeq(dht, c, ps))
  {
    ExtendsPreservesConsistent(c, CrawlSeq(dht, c, ps));
  }

  /** Starting from a new crawler, no identifier is pushed twice and the registry is exactly what was pushed. */
  lemma NoDuplicatePush(dht: Snapshot, ps: seq<PeerId>)
    ensures var r := CrawlSeq(dht, NewCrawler(), ps);
            && r.peers == (set i | 0 <= i < |r.work| :: r.work[i].id)
            && forall i, j | 0 <= i < j < |r.work| :: r.work[i].id != r.work[j].id
  {
    CrawlSeqKeepsConsistent(dht, NewCrawler(), ps);
  }

  /**
    After a walk, every peer it registered that has a neighbour list has each
    resolvable neighbour registered too: the registry is closed under the
    neighbours the DHT delivered, restricted to resolvable peers.
   */
  lemma NeighboursRegistered(dht: Snapshot, c: Crawler, ps: seq<PeerId>, q: PeerId, k: nat)
    requires q in CrawlSeq(dht, c, ps).peers && q !in c.peers && q in dht.connected
    requires k < |dht.connected[q]| && dht.connected[q][k].id in dht.resolve
    ensures dht.connected[q][k].id in CrawlSeq(dht, c, ps).peers
  {
    assert Visited(c, CrawlSeq(dht, c, ps), dht.connected[q][k].id);
  }

  /** A peer registered before a walk is never queried by it: the walk skips it at the registry check. */
  lemma RegisteredNotQueriedAgain(dht: Snapshot, c: Crawler, ps: seq<PeerId>, q: PeerId)
    requires q in c.peers
    ensures q !in CrawlSeq(dht, c, ps).lookups[|c.lookups|..]
  {
  }
}

=== FILE: worklist.dfy ===
/**
  The peer-walk with its recursion replaced by an explicit stack of pending
  neighbour lists, as a bounded-stack implementation would run it. It pushes
  a peer's PeerInfo before expanding that peer's neighbours, and is proved to
  leave exactly the state the recursive `CrawlPeer` leaves.
 */
module Worklist {
  import opened Dht
  import opened Registry
  import opened PeerWalk

  /**
    What the recursive walk still has to do: finish the top (last) pending
    list, then the one below it, and so on down the stack.
   */
  function Resume(dht: Snapshot, c: Crawler, stack: seq<seq<PeerId>>): Crawler
    decreases |stack|
  {
    if stack == [] then c
    else Resume(dht, CrawlSeq(dht, c, stack[|stack| - 1]), stack[..|stack| - 1])
  }

  /** The number of identifiers still waiting on the stack. */
  function Pending(stack: seq<seq<PeerId>>): nat
  {
    if stack == [] then 0 else Pending(stack[..|stack| - 1]) + |stack[|stack| - 1]|
  }

  lemma PendingPush(stack: seq<seq<PeerId>>, ps: seq<PeerId>)
    ensures Pending(stack + [ps]) == Pending(stack) + |ps|
  {
  }

  lemma ResumePush(dht: Snapshot, c: Crawler, stack: seq<seq<PeerId>>, ps: seq<PeerId>)
    ensures Resume(dht, c, stack + [ps]) == Resume(dht, CrawlSeq(dht, c, ps), stack)
  {
  }

  /**
    One visit as the stack machine performs it: the state after the registry
    check and the FindPeer step, and the neighbour list still to be walked
    (empty when there is none).
   */
  function Visit(dht: Snapshot, c: Crawler, q: PeerId): (r: (Crawler, seq<PeerId>))
    ensures |Unseen(dht, r.0)| < |Unseen(dht, c)| || (|Unseen(dht, r.0)| == |Unseen(dht, c)| && r.1 == [])
  {
    if q in c.peers then (c, [])
    else
      var c1 := Resolve(dht, c, q);
      if q in dht.resolve then
        RegisterShrinksUnseen(dht, c, q);
        if q in dht.connected then (c1, Ids(dht.connected[q])) else (c1, [])
      else (c1, [])
  }

  /** The stack machine's visit, completed by walking its neighbour list, is the recursive visit. */
  lemma VisitAgrees(dht: Snapshot, c: Crawler, q: PeerId)
    ensures CrawlPeer(dht, c, q) == CrawlSeq(dht, Visit(dht, c, q).0, Visit(dht, c, q).1)
  {
  }

  /** Taking the first identifier off the top list: visit it, push its neighbours, keep the rest of the list below. */
  lemma ResumeStep(dht: Snapshot, c: Crawler, rest: seq<seq<PeerId>>, top: seq<PeerId>)
    requires top != []
    ensures Resume(dht, c, rest + [top])
              == Resume(dht, Visit(dht, c, top[0]).0, rest + [top[1..]] + [Visit(dht, c, top[0]).1])
  {
    var v := Visit(dht, c, top[0]);
    ResumePush(dht, c, rest, top);
    assert CrawlSeq(dht, c, top) == CrawlSeq(dht, CrawlPeer(dht, c, top[0]), top[1..]);
    VisitAgrees(dht, c, top[0]);
    ResumePush(dht, CrawlSeq(dht, v.0, v.1), rest, top[1..]);
    ResumePush(dht, v.0, rest + [top[1..]], v.1);
  }

  /** A list with nothing left to walk can stay off the stack. */
  lemma ResumeEmpty(dht: Snapshot, c: Crawler, stack: seq<seq<PeerId>>)
    ensures Resume(dht, c, stack + [[]]) == Resume(dht, c, stack)
  {
  }

  /** A stack holding just `[p]` still has the whole recursive visit of `p` to do. */
  lemma ResumeStart(dht: Snapshot, c: Crawler, p: PeerId)
    ensures Resume(dht, c, [[p]]) == CrawlPeer(dht, c, p)
  {
    ResumePush(dht, c, [], [p]);
    assert [] + [[p]] == [[p]];
    assert CrawlSeq(dht, c, [p]) == CrawlSeq(dht, CrawlPeer(dht, c, p), [p][1..]);
  }

  lemma SplitLast<T>(s: seq<T>)
    requires s != []
    ensures s == s[..|s| - 1] + [s[|s| - 1]]
  {
  }

  method CrawlPeerIterative(dht: Snapshot, c: Crawler, p: PeerId) returns (r: Crawler)
    ensures r == CrawlPeer(dht, c, p)
  {
    ghost var target := CrawlPeer(dht, c, p);
    r := c;
    var stack: seq<seq<PeerId>> := [[p]];
    ResumeStart(dht, c, p);
    while stack != []
      invariant Resume(dht, r, stack) == target
      decreases |Unseen(dht, r)|, Pending(stack), |stack|
    {
      var top := stack[|stack| - 1];
      var rest := stack[..|stack| - 1];
      SplitLast(stack);
      PendingPush(rest, top);
      if top == [] {
        stack := rest;
      } else {
        ResumeStep(dht, r, rest, top);
        PendingPush(rest, top[1..]);
        var (next, neighbours) := Visit(dht, r, top[0]);
        r := next;
        stack := rest + [top[1..]];
        if neighbours != [] {
          stack := stack + [neighbours];
        } else {
          ResumeEmpty(dht, r, stack);
        }
      }
    }
  }
}
